=== FILE: README.md ===
# Plant shop backend: cart, wishlist, order and product handlers

A Dafny model of the decision logic of a small plant-shop REST backend. The
database is four maps (users, products, sellers, orders), and each handler is a
pure function from the store and the request to either a refusal reason (with
its HTTP status) or the new store and the response payload. A refusal carries
no store, so a refused request changes nothing.

Modules follow the program:

- `Common`: ids, refusal reasons and their status codes, and `Result`.
- `NumberCast`: the store's cast of a request value to a `Number` path, which
  decides what an edit writes for price and stock.
- `UserModel`, `ProductModel`, `OrderModel`: the three schemas. They cover the
  cart line shape, the wishlist, the trimmed username and password lengths, the
  price and stock bounds, the category enum and its default, the status enum
  and its default, and the order totals.
- `Store`: the four collections, plus the approval test that `populate` with
  `match: {isApproved: true}` applies.
- `Cart`, `Wishlist`, `Orders`, `Products`: the handlers of the four core
  controllers, with the pure list operations under them.
- `Consistency`: what deleting a product means for carts and wishlists.

Behaviour of the code worth knowing, each stated by a member below:

- `createOrder` takes a single `sellerId` and stores one order. It does not
  group items by seller and does not clear the cart. It stops at the first
  unknown product, before anything is stored.
- `updateOrder` has no transition guard. Any of the four statuses can follow
  any other.
- `editProduct` and `deleteProduct` check that the seller exists and is
  approved, but not that the seller owns the product. `editProduct` checks
  neither the sign of price and stock nor the category, so it can write values
  that `createProduct` would refuse.
- `createProduct` never supplies `scientificName` or `origin`, which the
  schema requires.
- A deleted product stays in carts and wishlists. The read handlers hide it.
  Of the write handlers, only cart removal still accepts its id: wishlist
  removal looks the product up first and answers 404.

## Model

| member | source | states |
|---|---|---|
| `Common.StatusCode` | controllers/Product.controller.js:34-86 | Each refusal is answered with 400, 403, 404 or 500. 403 is used only for an unapproved seller, and 500 only for a failed store cast. |
| `UserModel.Trim` | models/User.js:16-29 | The stored value is a contiguous slice of the input. Everything cut off is whitespace or a line terminator (the full set `String.prototype.trim` strips), and the result neither starts nor ends with one. |
| `UserModel.TrimIdempotent` | models/User.js:23-29 | Trimming an already trimmed value changes nothing. |
| `UserModel.JsLength` | models/User.js:19-28 | The length the schema's `minlength`/`maxlength` compare is JavaScript's UTF-16 length. It lies between the number of characters and twice that number, and equals the number of characters when every character is in the Basic Multilingual Plane. |
| `UserModel.JsLengthChar` | models/User.js:19-28 | A character inside the Basic Multilingual Plane counts one code unit; one outside it counts two. |
| `UserModel.JsLengthAppend` | models/User.js:19-28 | Lengths add up over concatenation, so the length is the sum of the per-character counts. |
| `UserModel.StoredUsername` | models/User.js:23-29 | A username is accepted exactly when its trimmed value is 3 to 20 UTF-16 code units long. The trimmed form is what gets stored. |
| `UserModel.TwoAstralCharactersAreAUsername` | models/User.js:27-28 | Two emoji make a username of four code units, which the schema accepts. |
| `UserModel.StoredPassword` | models/User.js:16-22 | A value is accepted as a password exactly when its trimmed value is at least 6 UTF-16 code units long. |
| `UserModel.Lower` | models/User.js:10 | Lower-casing keeps the length, maps each capital letter to its small letter, keeps every other character, and leaves no capital letter. |
| `UserModel.LowerIdempotent` | models/User.js:10 | Lower-casing a lower-cased value changes nothing. |
| `UserModel.StoredEmail` | models/User.js:5-10 | The stored email is the trimmed input with each capital letter replaced by its small letter and every other character kept, so it holds no capital letter. |
| `UserModel.NewUser` | models/User.js:5-40 | A new user stores the trimmed, lower-cased email, the trimmed username (3 to 20 UTF-16 code units) and the trimmed password (at least 6), with no address, an empty cart and an empty wishlist. |
| `ProductModel.ControllerCategoriesWithinSchema` | controllers/Product.controller.js:5 | The four categories the handler accepts are among the schema's ten, and so is the default "Plants". |
| `OrderModel.ParseStatus` | models/Order.js:16-21 | Exactly the four enum spellings parse, and each parses back to the status with that spelling. |
| `OrderModel.AmountOfAppend` | controllers/Order.controller.js:46-48 | Both totals add up over concatenated item lists, so each total is a plain sum over the items. |
| `OrderModel.TotalsBounds` | models/Order.js:8-15 | When quantities are at least 1 and prices are non-negative, the count is at least the number of lines and the amount is non-negative. |
| `Cart.FindLine` | controllers/Cart.controller.js:37-39 | Finds the first line for the product, and finds one exactly when the cart holds the product. |
| `Cart.AddLine` | controllers/Cart.controller.js:36-45 | If the product is in the cart, its first line's quantity goes up by 1 and nothing else changes. Otherwise `{product, 1}` is appended. The product's total quantity rises by exactly 1 and every other product's total is unchanged. The cart keeps at most one line per product and keeps every quantity at 1 or more. |
| `Cart.RemoveLines` | controllers/Cart.controller.js:86-89 | The result holds exactly the cart's lines for other products and is never longer than the cart. |
| `Cart.RemoveLinesLeavesNoLine` | controllers/Cart.controller.js:87-89 | After removal, no line for the product is left. |
| `Cart.RemoveLinesKeepsWellFormed` | controllers/Cart.controller.js:87-89 | Removal keeps one line per product and every quantity at 1 or more. |
| `Cart.RemoveLinesAbsent` | controllers/Cart.controller.js:87-89 | Removing a product that is not in the cart leaves the cart unchanged. |
| `Cart.RemoveLinesIdempotent` | controllers/Cart.controller.js:87-89 | Removing the same product twice is the same as removing it once. |
| `Cart.RemoveLinesAppend` | controllers/Cart.controller.js:87-89 | Removal works line by line over concatenated carts, so the kept lines stay in their original order. |
| `Cart.QuantityAfterRemove` | controllers/Cart.controller.js:87-89 | After removal the product's total is 0 and every other product's total is unchanged. |
| `Cart.UpdateLine` | controllers/Cart.controller.js:137-162 | A product not in the cart gets 400 "not in cart", checked before the action. An action other than "increase" or "decrease" gets 400. On success the first line for the product is edited in place and every other line keeps its position: "increase" adds 1; "decrease" subtracts 1, or, when the quantity would fall to 0 or below, filters out every line for the product. In a well-formed cart the product's total goes up or down by exactly 1. Other products' totals are untouched, and the cart stays well-formed. |
| `Cart.AddThenDecreaseExisting` | controllers/Cart.controller.js:41-42 | For a cart whose quantities are all at least 1: if the cart already holds the product, adding one unit and then decreasing by one gives back the original cart. |
| `Cart.AddThenDecreaseAbsent` | controllers/Cart.controller.js:44 | If the cart lacks the product, adding it (a new line of quantity 1) and then decreasing by one removes that line again and gives back the original cart. |
| `Cart.AddThenDecreaseRestores` | controllers/Cart.controller.js:148-156 | For a cart whose quantities are all at least 1, adding one unit and then decreasing by one gives back the original cart, whether or not the product was in it. |
| `Cart.VisibleLines` | controllers/Cart.controller.js:226-229 | Keeps exactly the lines whose product exists and whose seller exists and is approved. |
| `Cart.VisibleLinesAppend` | controllers/Cart.controller.js:227-229 | The approval filter works over concatenated carts, so it keeps cart order. |
| `Cart.FormatLine` | controllers/Cart.controller.js:180-191 | A formatted entry carries the line's product id and quantity, and the product's seller, title, price, subtitle and thumbnail (as `image`). |
| `Cart.FormatCart` | controllers/Cart.controller.js:180-191 | Formatting is one entry per line, in order. |
| `Cart.AddToCart` | controllers/Cart.controller.js:5-53 | Refusals come in this order: a missing id gets 400, an unknown user 404, an unknown product 404. On success the user's cart becomes `AddLine` of the old cart and no other document changes. The handler keeps every cart well-formed. |
| `Cart.RemoveFromCart` | controllers/Cart.controller.js:65-96 | A missing id gets 400 and an unknown user 404. The product is not looked up. On success the cart becomes `RemoveLines` of the old cart, and the handler keeps every cart well-formed. |
| `Cart.UpdateCart` | controllers/Cart.controller.js:108-170 | Refusals come in this order: a missing id or action gets 400, an unknown user 404, an unknown product 404, then the `UpdateLine` refusals. The handler keeps every cart well-formed. |
| `Cart.FetchCart` | controllers/Cart.controller.js:194-238 | A missing id gets 400 and an unknown user 404. Otherwise there is one entry per visible line, in cart order, carrying that line's product id and quantity and the product's current seller, title, price, subtitle and thumbnail. |
| `Cart.FetchCartShowsListedLines` | controllers/Cart.controller.js:205-232 | Every line whose product is listed shows up with its quantity, and every entry shown belongs to a listed product. |
| `Wishlist.RemoveId` | controllers/Wishlist.controller.js:108 | The result holds exactly the other ids. |
| `Wishlist.RemoveIdAt` | controllers/Wishlist.controller.js:108 | In a duplicate-free wishlist, removal cuts out exactly the one position of the id and keeps the rest in order. |
| `Wishlist.RemoveIdKeepsNoDuplicates` | controllers/Wishlist.controller.js:108 | Removal keeps the wishlist free of duplicates. |
| `Wishlist.AddToWishlist` | controllers/Wishlist.controller.js:6-53 | Refusals come in this order: a missing id gets 400, an unknown user 404, an unknown product 404, an id already present 400. On success the id is appended. No other document changes, and every wishlist stays duplicate-free. |
| `Wishlist.RemoveFromWishlist` | controllers/Wishlist.controller.js:67-113 | Refusals come in this order: a missing id gets 400, an unknown user 404, an unknown product 404, an absent id 400. On success the id is filtered out and the list gets shorter, and every wishlist stays duplicate-free. |
| `Wishlist.AddThenRemoveRestores` | controllers/Wishlist.controller.js:40-108 | A successful add followed by a remove of the same product gives back the original store and wishlist. |
| `Wishlist.ListedProducts` | controllers/Wishlist.controller.js:140-155 | Every entry is a wished-for id whose seller is approved, paired with its product document. Every such id appears. |
| `Wishlist.ListedProductsAppend` | controllers/Wishlist.controller.js:155 | The approval filter works over concatenated lists, so it keeps wishlist order. |
| `Wishlist.FetchWishlist` | controllers/Wishlist.controller.js:128-159 | A missing id gets 400 and an unknown user 404. Otherwise the result holds exactly the wished-for products whose seller is approved. |
| `Orders.FirstUnknown` | controllers/Order.controller.js:35-44 | Gives the first item whose product is not in the catalog, and gives none exactly when every product resolves. |
| `Orders.Snapshot` | controllers/Order.controller.js:50-54 | An order item stores the product id and the given quantity, together with the product's unit price (not the line total). |
| `Orders.PriceItems` | controllers/Order.controller.js:31-55 | The loop fails with 404 naming the first unknown product. Otherwise it gives one snapshot item per request, in order, with `totalAmount` equal to the sum of unit price times quantity and `totalItems` equal to the sum of quantities. |
| `Orders.CreateOrder` | controllers/Order.controller.js:6-72 | Refusals come in this order: a missing user, seller or address, or an empty item list, gets 400. Then an unknown user gets 404, then the first unknown product gets 404, and no order is stored. On success exactly one order is added under the fresh id, for the one given seller, with status pending, the consistent totals and the price snapshot. With positive quantities it meets the schema. |
| `Orders.UpdateOrder` | controllers/Order.controller.js:84-116 | A missing field gets 400, an unknown order 404 (checked before the status), and a status outside the enum 400. On success only that order's status changes. |
| `Orders.AnyStatusReachable` | controllers/Order.controller.js:103-111 | There is no transition guard: from any current status, each of the four statuses can be set. |
| `Orders.UpdateOrderIdempotent` | controllers/Order.controller.js:110-111 | Repeating the same status update gives the same store and order. |
| `NumberCast.ParseDecimal` | controllers/Product.controller.js:195-206 | A string is a numeral exactly when it is non-empty digits, optionally after one minus sign; without the sign its value is non-negative. |
| `NumberCast.ShowNatRoundTrip` | controllers/Product.controller.js:195-206 | Reading back the digits of a natural number gives that number. |
| `NumberCast.ParseShowInt` | controllers/Product.controller.js:195-206 | Parsing the numeral of any integer gives that integer. |
| `NumberCast.CastNumber` | controllers/Product.controller.js:195-206 | `null` and "" become null, a number stays itself, `true` and `false` become 1 and 0, a numeral string becomes its value, and any other string, array or object fails the cast. |
| `NumberCast.NumeralCastsToValue` | controllers/Product.controller.js:195-206 | The numeral of any integer casts to that integer. |
| `Products.ImagesOf` | controllers/Product.controller.js:20 | An absent `images` field defaults to the empty list. A given value is kept as it is. |
| `Products.CreateProduct` | controllers/Product.controller.js:9-105 | The guard order, each guard refusing with its own reason: missing fields or non-array images 400, then non-number or negative price 400, stock 400, category outside the four 400, malformed seller id 400, unknown seller 404, unapproved seller 403. A form that passes all seven guards is accepted, including a price or stock of 0. The stored product carries the form's values and the default subtitle, meets the schema bounds, and lacks `scientificName` and `origin`. Creation keeps the whole catalog within bounds. |
| `Products.EditProduct` | controllers/Product.controller.js:139-214 | The guard order: missing fields or empty images 400, then unknown seller 404, unapproved seller 403, unknown product 404. A price or stock the store's cast rejects is refused with 500. An edit that passes every guard, with a price and stock the cast stores as numbers, succeeds. On success price and stock hold the cast values, the other listed fields come from the form, and `seller`, `scientificName`, `origin` and `subtitle` keep their old values. |
| `Products.EditStoresCastValues` | controllers/Product.controller.js:195-206 | A price sent as a numeral string and a stock sent as a boolean pass the guards and are stored as the numbers the cast makes of them. |
| `Products.EditIgnoresOwnership` | controllers/Product.controller.js:172-206 | An approved seller can edit a product owned by another seller, and the owner stays the same. |
| `Products.EditCanBreakBounds` | controllers/Product.controller.js:195-206 | An edit with a negative price or an unknown category succeeds, leaving a product outside the schema bounds. |
| `Products.EmptyImagesCreateOnly` | controllers/Product.controller.js:154-170 | A form with no images is accepted by create and refused with 400 by edit. |
| `Products.DeleteProduct` | controllers/Product.controller.js:226-265 | The guard order: missing id 400, then unknown seller 404, unapproved seller 403, unknown product 404. On success exactly that product is gone, and users, orders and sellers are unchanged. |
| `Consistency.DeletedProductHidden` | controllers/Cart.controller.js:226-229 | After a delete, no user's fetched cart or wishlist shows the deleted product. |
| `Consistency.DeletedProductOnlyRemovable` | controllers/Cart.controller.js:129-135 | After a delete, adding the product to a cart or updating it is refused with 404, and so is removing it from a wishlist. Removing it from a cart still succeeds. |

## Left out

- The user, seller and admin controllers and the auth middleware are not modelled. They consist of password hashing, token signing and cookies, all of which are calls into foreign libraries.
- `UserModel.StoredPassword` states the schema's rule on the value it is given. Signup hashes the password with bcrypt before the schema sees it (controllers/User.controller.js:27-32), so the 6-unit minimum applies to the hash and a short typed password is not refused.
- Ids are compared by plain string equality. The source matches cart lines and wishlist entries by `toString()` equality and `includes` (controllers/Cart.controller.js:37-39, 87-89, 137-139; controllers/Wishlist.controller.js:40, 100, 108). `findById`, however, also accepts other spellings of the same ObjectId, such as upper-case hex. So `Cart.AddLine`, `Cart.AddToCart` and `Wishlist.AddToWishlist` keep one line or entry per product only for ids sent in their canonical spelling. An upper-case spelling of a product already in the cart adds a second line.
- Routing, server bootstrap, the database connection and the seed and cleanup scripts are not modelled. The handlers take their ids as they read them. One consequence of this: `editProduct` reads `req.params.productId` while its route declares `/:id`, and the model takes the id as the handler reads it.
- The pass-through reads are not modelled: `fetchAllProduct`, `fetchProductByID`, `fetchProductBySellerID`, `fetchOrderByUserId`, `fetchOrderBySellerId` and `filterOrder`. They are plain queries (plus date parsing in `filterOrder`) with no decision logic.
- `mongoose.Types.ObjectId.isValid` is the parameter `validId`. Ids the store generates are the parameter `newId`, which must be fresh.
- A lookup by a malformed id, which the store answers with a cast error and the catch-all answers with 500, is treated as a plain miss.
- The catch-all 500 answers and save-time schema validation are not modelled. For example, a real save of a created product would fail because `scientificName` and `origin` are missing, and `CreateProduct` states that they are missing.
- Response messages and success status codes (200, 201) are not modelled.
- The cart line's own subdocument `_id` is not modelled. Where `formatCartData` puts the populated seller document, the model puts the seller's id. Likewise, each product `fetchWishlist` returns carries the populated seller document, while `Wishlist.Listing` keeps the seller's id.
- Prices and quantities are integers. JavaScript floating point, `NaN` and fractional quantities are not modelled.
- Body fields are modelled by their JSON shape: a string, with "" for absent, for ids and text; `NumberField` (absent, `null`, number, string, boolean, other) for price and stock; `ImagesField` for images.
- `Products.EditProduct` treats every non-array `images` value as having no length. This leaves out a string value, which has a length and passes, and `null`, which throws and gets 500.
- `Products.EditProduct` answers a price or stock of `null` or "" with the cast error (500). The store's cast turns these into `null` and the handler answers 200. The model's product holds integer prices and stocks, so a null price or stock is not modelled.
- `NumberCast.ParseDecimal` reads only plain decimal integers. JavaScript's `Number` also accepts surrounding whitespace, a plus sign, fractions, exponents, hexadecimal, binary and octal prefixes and `Infinity`. The model counts each of these as a failed cast.
- `UserModel.Lower` lower-cases the ASCII letters only. `toLowerCase` also maps other Unicode capitals.
- The email format regex, field uniqueness, timestamps and the product's care-instruction defaults are not modelled. None of them takes part in the handlers' decisions.
- Two `createOrder` fields are modelled in one shape only. Item quantities are integers, while a quantity sent as a JSON string would be concatenated into `totalItems` by `+=` (controllers/Order.controller.js:48). `shippingAddress` is a string, with "" for absent, while the schema's type is `Mixed` (models/Order.js:22) and it normally holds an object.
- Concurrency and transactions are not modelled. Each handler is one atomic step on the store.

=== FILE: cart.dfy ===
/**
 The cart handlers. A user's cart is an ordered list of `{product, quantity}`
 lines; adding merges into the first line for the product or appends a new
 line, removing filters the product out, updating steps a quantity up or down
 (dropping the product when it reaches zero), and fetching keeps only lines
 whose product resolves to an approved seller.
 */
module Cart {
  import opened Common
  import opened UserModel
  import opened Store

  /// Cart line lists

  predicate InCart(cart: seq<CartLine>, p: Id) {
    exists i :: 0 <= i < |cart| && cart[i].product == p
  }

  /** `i` is the line `Array.prototype.find` returns for product `p`. */
  predicate FirstLine(cart: seq<CartLine>, p: Id, i: int) {
    0 <= i < |cart| && cart[i].product == p && forall j :: 0 <= j < i ==> cart[j].product != p
  }

  /** At most one line per product. */
  predicate Unique(cart: seq<CartLine>) {
    forall i, j :: 0 <= i < j < |cart| ==> cart[i].product != cart[j].product
  }

  /** Every line holds at least one unit. */
  predicate Positive(cart: seq<CartLine>) {
    forall i :: 0 <= i < |cart| ==> cart[i].quantity >= 1
  }

  /** The invariant the cart handlers keep. */
  predicate WellFormed(cart: seq<CartLine>) {
    Unique(cart) && Positive(cart)
  }

  /** How much of `p` a line contributes. */
  function Share(l: CartLine, p: Id): int {
    if l.product == p then l.quantity else 0
  }

  /** The total quantity of `p` the cart holds, whichever lines it sits on. */
  function QuantityOf(cart: seq<CartLine>, p: Id): int {
    if |cart| == 0 then 0 else Share(cart[0], p) + QuantityOf(cart[1..], p)
  }

  function FindLine(cart: seq<CartLine>, p: Id): (r: Option<nat>)
    ensures r.Some? <==> InCart(cart, p)
    ensures r.Some? ==> FirstLine(cart, p, r.value)
  {
    if |cart| == 0 then None
    else if cart[0].product == p then Some(0)
    else
      match FindLine(cart[1..], p)
      case None =>
        assert forall i :: 1 <= i < |cart| ==> cart[i] == cart[1..][i - 1];
        None
      case Some(i) =>
        assert cart[1..][i] == cart[i + 1];
        Some(i + 1)
  }

  lemma {:induction false} QuantityOfAbsent(cart: seq<CartLine>, p: Id)
    requires !InCart(cart, p)
    ensures QuantityOf(cart, p) == 0
  {
    if |cart| > 0 {
      assert !InCart(cart[1..], p) by {
        forall i | 0 <= i < |cart[1..]| ensures cart[1..][i].product != p {
          assert cart[1..][i] == cart[i + 1];
        }
      }
      QuantityOfAbsent(cart[1..], p);
    }
  }

  lemma {:induction false} QuantityOfAppend(a: seq<CartLine>, b: seq<CartLine>, p: Id)
    ensures QuantityOf(a + b, p) == QuantityOf(a, p) + QuantityOf(b, p)
  {
    if |a| == 0 {
      assert a + b == b;
    } else {
      assert (a + b)[1..] == a[1..] + b;
      QuantityOfAppend(a[1..], b, p);
    }
  }

  lemma {:induction false} QuantityOfSet(cart: seq<CartLine>, i: int, l: CartLine, p: Id)
    requires 0 <= i < |cart|
    ensures QuantityOf(cart[i := l], p) == QuantityOf(cart, p) - Share(cart[i], p) + Share(l, p)
  {
    if i == 0 {
      assert cart[i := l][1..] == cart[1..];
    } else {
      assert cart[i := l][1..] == cart[1..][i - 1 := l];
      QuantityOfSet(cart[1..], i - 1, l, p);
    }
  }

  /** In a cart with one line per product, the first line for `p` holds all of
      it. */
  lemma {:induction false} QuantityOfUniqueLine(cart: seq<CartLine>, p: Id, i: int)
    requires Unique(cart) && FirstLine(cart, p, i)
    ensures QuantityOf(cart, p) == cart[i].quantity
  {
    if i == 0 {
      assert !InCart(cart[1..], p) by {
        forall k | 0 <= k < |cart[1..]| ensures cart[1..][k].product != p {
          assert cart[1..][k] == cart[k + 1];
        }
      }
      QuantityOfAbsent(cart[1..], p);
    } else {
      assert cart[1..][i - 1] == cart[i];
      QuantityOfUniqueLine(cart[1..], p, i - 1);
    }
  }

  /** The cart with line `i`'s quantity moved by `delta`. */
  function Bump(cart: seq<CartLine>, i: int, delta: int): (r: seq<CartLine>)
    requires 0 <= i < |cart|
    ensures |r| == |cart| && forall k :: 0 <= k < |r| ==> r[k].product == cart[k].product
    ensures r[i].quantity == cart[i].quantity + delta
    ensures forall k :: 0 <= k < |r| && k != i ==> r[k] == cart[k]
    ensures QuantityOf(r, cart[i].product) == QuantityOf(cart, cart[i].product) + delta
    ensures forall q :: q != cart[i].product ==> QuantityOf(r, q) == QuantityOf(cart, q)
  {
    var r := cart[i := cart[i].(quantity := cart[i].quantity + delta)];
    QuantityOfSet(cart, i, r[i], cart[i].product);
    forall q | q != cart[i].product
      ensures QuantityOf(r, q) == QuantityOf(cart, q)
    {
      QuantityOfSet(cart, i, r[i], q);
    }
    r
  }

  /** The find-or-append step of `addToCart`: one more unit of `p`, on the
      first line holding it or on a new line at the end. */
  function AddLine(cart: seq<CartLine>, p: Id): (r: seq<CartLine>)
    ensures InCart(cart, p) ==> exists i :: FirstLine(cart, p, i) && r == cart[i := CartLine(p, cart[i].quantity + 1)]
    ensures !InCart(cart, p) ==> r == cart + [CartLine(p, 1)]
    ensures QuantityOf(r, p) == QuantityOf(cart, p) + 1
    ensures forall q :: q != p ==> QuantityOf(r, q) == QuantityOf(cart, q)
    ensures Unique(cart) ==> Unique(r)
    ensures Positive(cart) ==> Positive(r)
  {
    match FindLine(cart, p)
    case Some(i) =>
      Bump(cart, i, 1)
    case None =>
      var r := cart + [CartLine(p, 1)];
      forall q ensures QuantityOf(r, q) == QuantityOf(cart, q) + Share(CartLine(p, 1), q) {
        QuantityOfAppend(cart, [CartLine(p, 1)], q);
        assert [CartLine(p, 1)][1..] == [];
      }
      r
  }

  /** The filter of `removeFromCart`: every line for `p` dropped, the others
      kept in order. */
  function RemoveLines(cart: seq<CartLine>, p: Id): (r: seq<CartLine>)
    ensures forall l :: l in r <==> l in cart && l.product != p
    ensures |r| <= |cart|
  {
    if |cart| == 0 then []
    else
      var rest := RemoveLines(cart[1..], p);
      assert forall l :: l in cart <==> l == cart[0] || l in cart[1..];
      if cart[0].product == p then rest else [cart[0]] + rest
  }

  lemma RemoveLinesLeavesNoLine(cart: seq<CartLine>, p: Id)
    ensures !InCart(RemoveLines(cart, p), p)
  {
  }

  lemma HeadNotInTail(cart: seq<CartLine>)
    requires Unique(cart) && |cart| > 0
    ensures forall l :: l in cart[1..] ==> l.product != cart[0].product
  {
  }

  lemma {:induction false} RemoveLinesKeepsUnique(cart: seq<CartLine>, p: Id)
    requires Unique(cart)
    ensures Unique(RemoveLines(cart, p))
  {
    if |cart| > 0 {
      var tail := cart[1..];
      assert Unique(tail) by {
        assert forall i :: 0 <= i < |tail| ==> tail[i] == cart[i + 1];
      }
      RemoveLinesKeepsUnique(tail, p);
      var rest := RemoveLines(tail, p);
      if cart[0].product != p {
        HeadNotInTail(cart);
        var r := [cart[0]] + rest;
        forall i, j | 0 <= i < j < |r| ensures r[i].product != r[j].product {
          assert r[j] == rest[j - 1] && rest[j - 1] in rest;
          if i > 0 {
            assert r[i] == rest[i - 1];
          }
        }
      }
    }
  }

  lemma RemoveLinesKeepsWellFormed(cart: seq<CartLine>, p: Id)
    requires WellFormed(cart)
    ensures WellFormed(RemoveLines(cart, p))
  {
  }

  lemma {:induction false} RemoveLinesAbsent(cart: seq<CartLine>, p: Id)
    requires !InCart(cart, p)
    ensures RemoveLines(cart, p) == cart
  {
    if |cart| > 0 {
      assert !InCart(cart[1..], p) by {
        forall i | 0 <= i < |cart[1..]| ensures cart[1..][i].product != p {
          assert cart[1..][i] == cart[i + 1];
        }
      }
      RemoveLinesAbsent(cart[1..], p);
      assert cart == [cart[0]] + cart[1..];
    }
  }

  lemma RemoveLinesIdempotent(cart: seq<CartLine>, p: Id)
    ensures RemoveLines(RemoveLines(cart, p), p) == RemoveLines(cart, p)
  {
  }

  /** Removal works line by line, so it keeps the relative order of what it
      keeps. */
  lemma {:induction false} RemoveLinesAppend(a: seq<CartLine>, b: seq<CartLine>, p: Id)
    ensures RemoveLines(a + b, p) == RemoveLines(a, p) + RemoveLines(b, p)
  {
    if |a| == 0 {
      assert a + b == b;
    } else {
      assert (a + b)[0] == a[0] && (a + b)[1..] == a[1..] + b;
      RemoveLinesAppend(a[1..], b, p);
    }
  }

  lemma {:induction false} QuantityAfterRemove(cart: seq<CartLine>, p: Id, q: Id)
    ensures QuantityOf(RemoveLines(cart, p), q) == if q == p then 0 else QuantityOf(cart, q)
  {
    if q == p {
      QuantityOfAbsent(RemoveLines(cart, p), p);
    } else if |cart| > 0 {
      QuantityAfterRemove(cart[1..], p, q);
      if cart[0].product != p {
        assert ([cart[0]] + RemoveLines(cart[1..], p))[1..] == RemoveLines(cart[1..], p);
      }
    }
  }

  /** The cart after line `i`, the first for `p`, is stepped: one more on
      "increase"; on "decrease" one fewer, or, when that would leave none,
      every line for `p` filtered out. */
  function Stepped(cart: seq<CartLine>, p: Id, i: int, action: string): seq<CartLine>
    requires 0 <= i < |cart|
  {
    if action == "increase" then cart[i := CartLine(p, cart[i].quantity + 1)]
    else if cart[i].quantity <= 1 then RemoveLines(cart, p)
    else cart[i := CartLine(p, cart[i].quantity - 1)]
  }

  /** The step of `updateCart` once the product is known to exist: the first
      line for `p` goes up or down by one, and on reaching zero every line for
      `p` is dropped. */
  function UpdateLine(cart: seq<CartLine>, p: Id, action: string): (r: Result<seq<CartLine>>)
    ensures !InCart(cart, p) ==> r == Err(NotInCart)
    ensures InCart(cart, p) && action != "increase" && action != "decrease" ==> r == Err(InvalidAction)
    ensures r.Ok? <==> InCart(cart, p) && (action == "increase" || action == "decrease")
    ensures r.Ok? ==> exists i :: FirstLine(cart, p, i) && r.value == Stepped(cart, p, i, action)
    ensures r.Ok? ==> forall q :: q != p ==> QuantityOf(r.value, q) == QuantityOf(cart, q)
    ensures r.Ok? && WellFormed(cart) ==> WellFormed(r.value)
    ensures r.Ok? && WellFormed(cart) ==>
              QuantityOf(r.value, p) == QuantityOf(cart, p) + (if action == "increase" then 1 else -1)
  {
    match FindLine(cart, p)
    case None => Err(NotInCart)
    case Some(i) =>
      if action == "increase" then
        var r := Bump(cart, i, 1);
        assert r == Stepped(cart, p, i, action);
        Ok(r)
      else if action == "decrease" then
        if cart[i].quantity - 1 <= 0 then
          var r := RemoveLines(cart, p);
          assert r == Stepped(cart, p, i, action);
          forall q ensures QuantityOf(r, q) == if q == p then 0 else QuantityOf(cart, q) {
            QuantityAfterRemove(cart, p, q);
          }
          assert WellFormed(cart) ==> QuantityOf(cart, p) == 1 && WellFormed(r) by {
            if WellFormed(cart) {
              QuantityOfUniqueLine(cart, p, i);
              RemoveLinesKeepsWellFormed(cart, p);
            }
          }
          Ok(r)
        else
          var r := Bump(cart, i, -1);
          assert r == Stepped(cart, p, i, action);
          assert Positive(cart) ==> Positive(r);
          Ok(r)
      else
        Err(InvalidAction)
  }

  lemma FirstLineUnique(cart: seq<CartLine>, p: Id, i: int, j: int)
    requires FirstLine(cart, p, i) && FirstLine(cart, p, j)
    ensures i == j
  {
  }

  lemma AddThenDecreaseExisting(cart: seq<CartLine>, p: Id, i: int)
    requires Positive(cart) && FirstLine(cart, p, i)
    ensures UpdateLine(AddLine(cart, p), p, "decrease") == Ok(cart)
  {
    var i' :| FirstLine(cart, p, i') && AddLine(cart, p) == cart[i' := CartLine(p, cart[i'].quantity + 1)];
    FirstLineUnique(cart, p, i, i');
    var added := AddLine(cart, p);
    assert FirstLine(added, p, i);
    FirstLineUnique(added, p, i, FindLine(added, p).value);
    assert added[i := added[i].(quantity := added[i].quantity - 1)] == cart;
  }

  lemma AddThenDecreaseAbsent(cart: seq<CartLine>, p: Id)
    requires !InCart(cart, p)
    ensures UpdateLine(AddLine(cart, p), p, "decrease") == Ok(cart)
  {
    var added := AddLine(cart, p);
    assert FirstLine(added, p, |cart|);
    FirstLineUnique(added, p, |cart|, FindLine(added, p).value);
    assert added[|cart|].quantity - 1 <= 0;
    RemoveLinesAppend(cart, [CartLine(p, 1)], p);
    RemoveLinesAbsent(cart, p);
    assert RemoveLines([CartLine(p, 1)], p) == RemoveLines([], p) == [];
    assert RemoveLines(added, p) == cart;
  }

  /** Adding one unit and then taking one away gives back the cart, whether
      the product was already there or not. */
  lemma AddThenDecreaseRestores(cart: seq<CartLine>, p: Id)
    requires Positive(cart)
    ensures UpdateLine(AddLine(cart, p), p, "decrease") == Ok(cart)
  {
    match FindLine(cart, p)
    case Some(i) => AddThenDecreaseExisting(cart, p, i);
    case None => AddThenDecreaseAbsent(cart, p);
  }

  /** Lines whose product resolves to an approved seller, in cart order. */
  function VisibleLines(db: Db, cart: seq<CartLine>): (r: seq<CartLine>)
    ensures forall l :: l in r <==> l in cart && Listed(db, l.product)
    ensures |r| <= |cart|
  {
    if |cart| == 0 then []
    else
      var rest := VisibleLines(db, cart[1..]);
      assert forall l :: l in cart <==> l == cart[0] || l in cart[1..];
      if Listed(db, cart[0].product) then [cart[0]] + rest else rest
  }

  lemma {:induction false} VisibleLinesAppend(db: Db, a: seq<CartLine>, b: seq<CartLine>)
    ensures VisibleLines(db, a + b) == VisibleLines(db, a) + VisibleLines(db, b)
  {
    if |a| == 0 {
      assert a + b == b;
    } else {
      assert (a + b)[0] == a[0] && (a + b)[1..] == a[1..] + b;
      VisibleLinesAppend(db, a[1..], b);
    }
  }

  /// The response of `fetchCart`

  /** One formatted cart entry. `sellerId` is the seller reference of the
      product. */
  datatype CartView = CartView(
    sellerId: Id,
    productId: Id,
    title: string,
    price: int,
    quantity: int,
    subtitle: string,
    image: string)

  function FormatLine(db: Db, l: CartLine): (v: CartView)
    requires l.product in db.products
    ensures v.productId == l.product && v.quantity == l.quantity
    ensures var p := db.products[l.product];
            && v.sellerId == p.seller && v.title == p.title && v.price == p.price
            && v.subtitle == p.subtitle && v.image == p.thumbnail
  {
    var p := db.products[l.product];
    CartView(p.seller, l.product, p.title, p.price, l.quantity, p.subtitle, p.thumbnail)
  }

  function FormatCart(db: Db, lines: seq<CartLine>): (r: seq<CartView>)
    requires forall l :: l in lines ==> l.product in db.products
    ensures |r| == |lines|
    ensures forall k :: 0 <= k < |lines| ==> r[k] == FormatLine(db, lines[k])
  {
    seq(|lines|, k requires 0 <= k < |lines| => FormatLine(db, lines[k]))
  }

  /// Handlers

  /** Every user's cart keeps the handler invariant. */
  predicate CartsWellFormed(db: Db) {
    forall u :: u in db.users ==> WellFormed(db.users[u].cart)
  }

  /** The store after the user's cart is replaced. */
  function WithCart(db: Db, userId: Id, cart: seq<CartLine>): (db': Db)
    requires userId in db.users
    ensures db'.users.Keys == db.users.Keys && db'.users[userId].cart == cart
    ensures db'.users[userId] == db.users[userId].(cart := cart)
    ensures forall u :: u in db.users && u != userId ==> db'.users[u] == db.users[u]
    ensures db'.products == db.products && db'.sellers == db.sellers && db'.orders == db.orders
  {
    WithUser(db, userId, db.users[userId].(cart := cart))
  }

  function AddToCart(db: Db, userId: Id, productId: Id): (r: Result<(Db, seq<CartLine>)>)
    ensures !Present(userId) || !Present(productId) ==> r == Err(MissingFields)
    ensures Present(userId) && Present(productId) && userId !in db.users ==> r == Err(UserNotFound)
    ensures (Present(userId) && Present(productId) && userId in db.users && productId !in db.products)
              ==> r == Err(ProductNotFound)
    ensures r.Ok? <==> Present(userId) && Present(productId) && userId in db.users && productId in db.products
    ensures r.Ok? ==> r.value.1 == AddLine(db.users[userId].cart, productId)
                      && r.value.0 == WithCart(db, userId, r.value.1)
    ensures r.Ok? && CartsWellFormed(db) ==> CartsWellFormed(r.value.0)
  {
    if !Present(userId) || !Present(productId) then Err(MissingFields)
    else if userId !in db.users then Err(UserNotFound)
    else if productId !in db.products then Err(ProductNotFound)
    else
      var cart := AddLine(db.users[userId].cart, productId);
      Ok((WithCart(db, userId, cart), cart))
  }

  function RemoveFromCart(db: Db, userId: Id, productId: Id): (r: Result<(Db, seq<CartLine>)>)
    ensures !Present(userId) || !Present(productId) ==> r == Err(MissingFields)
    ensures Present(userId) && Present(productId) && userId !in db.users ==> r == Err(UserNotFound)
    ensures r.Ok? <==> Present(userId) && Present(productId) && userId in db.users
    ensures r.Ok? ==> r.value.1 == RemoveLines(db.users[userId].cart, productId)
                      && r.value.0 == WithCart(db, userId, r.value.1)
    ensures r.Ok? && CartsWellFormed(db) ==> CartsWellFormed(r.value.0)
  {
    if !Present(userId) || !Present(productId) then Err(MissingFields)
    else if userId !in db.users then Err(UserNotFound)
    else
      var cart := RemoveLines(db.users[userId].cart, productId);
      assert CartsWellFormed(db) ==> WellFormed(cart) by {
        if CartsWellFormed(db) {
          RemoveLinesKeepsWellFormed(db.users[userId].cart, productId);
        }
      }
      Ok((WithCart(db, userId, cart), cart))
  }

  function UpdateCart(db: Db, userId: Id, productId: Id, action: string): (r: Result<(Db, seq<CartLine>)>)
    ensures !Present(userId) || !Present(productId) || !Present(action) ==> r == Err(MissingFields)
    ensures (Present(userId) && Present(productId) && Present(action) && userId !in db.users)
              ==> r == Err(UserNotFound)
    ensures (Present(userId) && Present(productId) && Present(action) && userId in db.users
             && productId !in db.products) ==> r == Err(ProductNotFound)
    ensures (Present(userId) && Present(productId) && Present(action) && userId in db.users
             && productId in db.products) ==> r == (match UpdateLine(db.users[userId].cart, productId, action)
                        case Err(e) => Err(e)
                        case Ok(cart) => Ok((WithCart(db, userId, cart), cart)))
    ensures r.Ok? && CartsWellFormed(db) ==> CartsWellFormed(r.value.0)
  {
    if !Present(userId) || !Present(productId) || !Present(action) then Err(MissingFields)
    else if userId !in db.users then Err(UserNotFound)
    else if productId !in db.products then Err(ProductNotFound)
    else
      match UpdateLine(db.users[userId].cart, productId, action)
      case Err(e) => Err(e)
      case Ok(cart) => Ok((WithCart(db, userId, cart), cart))
  }

  function FetchCart(db: Db, userId: Id): (r: Result<seq<CartView>>)
    ensures !Present(userId) ==> r == Err(MissingFields)
    ensures Present(userId) && userId !in db.users ==> r == Err(UserNotFound)
    ensures r.Ok? <==> Present(userId) && userId in db.users
    ensures r.Ok? ==> var lines := VisibleLines(db, db.users[userId].cart);
                      |r.value| == |lines| <= |db.users[userId].cart|
                      && forall k :: 0 <= k < |lines| ==>
                           && Listed(db, lines[k].product)
                           && r.value[k].productId == lines[k].product
                           && r.value[k].quantity == lines[k].quantity
                           && r.value[k].price == db.products[lines[k].product].price
                           && r.value[k].sellerId == db.products[lines[k].product].seller
                           && r.value[k].title == db.products[lines[k].product].title
                           && r.value[k].subtitle == db.products[lines[k].product].subtitle
                           && r.value[k].image == db.products[lines[k].product].thumbnail
  {
    if !Present(userId) then Err(MissingFields)
    else if userId !in db.users then Err(UserNotFound)
    else Ok(FormatCart(db, VisibleLines(db, db.users[userId].cart)))
  }

  /** A cart line shows up in the fetched cart exactly when its product
      resolves to an approved seller, with its quantity as stored. */
  lemma FetchCartShowsListedLines(db: Db, userId: Id, l: CartLine)
    requires Present(userId) && userId in db.users
    ensures FetchCart(db, userId).Ok?
    ensures (exists k :: 0 <= k < |FetchCart(db, userId).value|
               && FetchCart(db, userId).value[k].productId == l.product
               && FetchCart(db, userId).value[k].quantity == l.quantity)
            <== l in db.users[userId].cart && Listed(db, l.product)
    ensures forall v :: v in FetchCart(db, userId).value ==> Listed(db, v.productId)
  {
  }
}

=== FILE: common.dfy ===
/**
 The vocabulary every handler shares: document ids as the handlers receive them,
 the reasons a handler refuses a request, the HTTP status code each reason is
 answered with, and the `Result` a handler returns.
 */
module Common {

  /** A document id as a handler reads it from the path or the body. The empty
      string stands for an absent (or otherwise falsy) value. */
  type Id = string

  /** JavaScript truthiness of a string-valued request field (`!x` is false). */
  predicate Present(s: string) {
    |s| > 0
  }

  datatype Option<+T> = None | Some(value: T)

  /** Why a handler refused the request; each reason is one early `return` of a
      controller. */
  datatype Reason =
    | MissingFields
    | UserNotFound
    | ProductNotFound
    | OrderItemNotFound(product: Id)
    | NotInCart
    | InvalidAction
    | AlreadyInWishlist
    | NotInWishlist
    | OrderNotFound
    | InvalidStatus
    | InvalidPrice
    | InvalidStock
    | InvalidCategory
    | InvalidSellerId
    | SellerNotFound
    | SellerNotApproved
    | UpdateCastError

  /** The HTTP status the controllers answer each refusal with. */
  function StatusCode(r: Reason): (code: int)
    ensures code == 400 <==> (r.MissingFields? || r.NotInCart? || r.InvalidAction?
                              || r.AlreadyInWishlist? || r.NotInWishlist? || r.InvalidStatus?
                              || r.InvalidPrice? || r.InvalidStock? || r.InvalidCategory?
                              || r.InvalidSellerId?)
    ensures code == 403 <==> r.SellerNotApproved?
    ensures code == 404 <==> (r.UserNotFound? || r.ProductNotFound? || r.OrderItemNotFound?
                              || r.OrderNotFound? || r.SellerNotFound?)
    ensures code == 500 <==> r.UpdateCastError?
  {
    match r
    case SellerNotApproved => 403
    case UserNotFound | ProductNotFound | OrderItemNotFound(_) | OrderNotFound | SellerNotFound => 404
    case UpdateCastError => 500
    case _ => 400
  }

  /** What a handler produces: the new store and payload, or the refusal. A
      refusal carries no store, so a refused request changes nothing. */
  datatype Result<+T> = Ok(value: T) | Err(reason: Reason)
}

=== FILE: consistency.dfy ===
/**
 What the handlers imply for one another. Deleting a product leaves dangling
 references in carts and wishlists; the read handlers hide them, and of the
 cart writers only removal still accepts the deleted id.
 */
module Consistency {
  import opened Common
  import opened Store
  import Cart
  import Wishlist
  import Products

  /** After a product is deleted, no user's fetched cart or wishlist shows it. */
  lemma DeletedProductHidden(db: Db, sellerId: Id, productId: Id, userId: Id)
    requires Products.DeleteProduct(db, sellerId, productId).Ok?
    requires Present(userId) && userId in db.users
    ensures var db' := Products.DeleteProduct(db, sellerId, productId).value;
            && Cart.FetchCart(db', userId).Ok?
            && (forall v :: v in Cart.FetchCart(db', userId).value ==> v.productId != productId)
            && Wishlist.FetchWishlist(db', userId).Ok?
            && (forall x :: x in Wishlist.FetchWishlist(db', userId).value ==> x.id != productId)
  {
  }

  /** A cart line for a deleted product can still be removed, but adding to it
      or stepping its quantity is refused because the product lookup fails. */
  lemma DeletedProductOnlyRemovable(db: Db, sellerId: Id, productId: Id, userId: Id, action: string)
    requires Products.DeleteProduct(db, sellerId, productId).Ok?
    requires Present(userId) && userId in db.users && Present(action)
    ensures var db' := Products.DeleteProduct(db, sellerId, productId).value;
            && Cart.AddToCart(db', userId, productId) == Err(ProductNotFound)
            && Cart.UpdateCart(db', userId, productId, action) == Err(ProductNotFound)
            && Cart.RemoveFromCart(db', userId, productId).Ok?
            && Wishlist.RemoveFromWishlist(db', userId, productId) == Err(ProductNotFound)
  {
  }
}

=== FILE: number_cast.dfy ===
/**
 The store's cast of a request value to a `Number` schema path, as an update
 without validators applies it: `null` and the empty string are stored as
 `null`, booleans as 1 and 0, decimal numerals as their value, and anything
 else fails the cast.
 */
module NumberCast {
  import opened Common

  /** A numeric body field by its JSON shape: absent, `null`, a number, a
      string, a boolean, or an array or object. */
  datatype NumberField = Undefined | Null | Number(n: int) | Text(s: string) | Flag(b: bool) | Other

  predicate IsDigit(c: char) {
    '0' <= c <= '9'
  }

  predicate AllDigits(s: string) {
    forall i :: 0 <= i < |s| ==> IsDigit(s[i])
  }

  /** The value of a string of decimal digits, most significant first. */
  function DigitsValue(s: string): (n: nat)
    requires AllDigits(s)
  {
    if |s| == 0 then 0
    else DigitsValue(s[..|s| - 1]) * 10 + (s[|s| - 1] as int - '0' as int)
  }

  /** The decimal digits of `n`, without leading zeros. */
  function ShowNat(n: nat): (s: string)
    ensures |s| > 0 && AllDigits(s)
  {
    var d := ['0' + (n % 10) as char];
    if n < 10 then d else ShowNat(n / 10) + d
  }

  lemma {:induction false} ShowNatRoundTrip(n: nat)
    ensures DigitsValue(ShowNat(n)) == n
  {
    var s := ShowNat(n);
    if n >= 10 {
      ShowNatRoundTrip(n / 10);
      assert s[..|s| - 1] == ShowNat(n / 10);
    }
  }

  /** A decimal integer numeral: digits, optionally after one minus sign. */
  function ParseDecimal(s: string): (r: Option<int>)
    ensures r.Some? <==> (|s| > 0 && AllDigits(s)) || (|s| > 1 && s[0] == '-' && AllDigits(s[1..]))
    ensures r.Some? && s[0] != '-' ==> r.value >= 0
  {
    if |s| > 0 && AllDigits(s) then Some(DigitsValue(s) as int)
    else if |s| > 1 && s[0] == '-' && AllDigits(s[1..]) then Some(-(DigitsValue(s[1..]) as int))
    else None
  }

  /** The numeral for an integer. */
  function ShowInt(n: int): (s: string)
    ensures |s| > 0
  {
    if n < 0 then "-" + ShowNat(-n) else ShowNat(n)
  }

  lemma ParseShowInt(n: int)
    ensures ParseDecimal(ShowInt(n)) == Some(n)
  {
    if n < 0 {
      var s := ShowInt(n);
      assert s[1..] == ShowNat(-n);
      assert !IsDigit(s[0]);
      ShowNatRoundTrip(-n);
    } else {
      ShowNatRoundTrip(n);
    }
  }

  /** What the cast leaves in the document. */
  datatype Cast = Stored(n: int) | StoredNull | CastFails

  /** The cast of a value the handler passed on (an absent field never
      reaches it). */
  function CastNumber(x: NumberField): (c: Cast)
    requires !x.Undefined?
    ensures c == StoredNull <==> x == Null || x == Text("")
    ensures x.Number? ==> c == Stored(x.n)
    ensures x.Flag? ==> c == Stored(if x.b then 1 else 0)
    ensures x.Text? && x.s != "" ==> (c.Stored? <==> ParseDecimal(x.s).Some?)
    ensures c.Stored? && x.Text? ==> ParseDecimal(x.s) == Some(c.n)
    ensures x.Other? ==> c == CastFails
  {
    match x
    case Null => StoredNull
    case Number(n) => Stored(n)
    case Flag(b) => Stored(if b then 1 else 0)
    case Text(s) =>
      if s == "" then StoredNull
      else
        (match ParseDecimal(s)
         case Some(n) => Stored(n)
         case None => CastFails)
    case Other => CastFails
  }

  /** A number sent as its numeral is stored as that number. */
  lemma NumeralCastsToValue(n: int)
    ensures CastNumber(Text(ShowInt(n))) == Stored(n)
  {
    ParseShowInt(n);
  }
}

=== FILE: order_model.dfy ===
/**
 The Order document: one buyer, one seller, a list of priced items, the two
 totals, a four-valued status that defaults to pending, and an opaque shipping
 address.
 */
module OrderModel {
  import opened Common

  datatype OrderStatus = Pending | Shipped | Delivered | Cancelled

  const DefaultStatus: OrderStatus := Pending

  /** The status as it is spelled in the schema enum and in requests. */
  function StatusName(s: OrderStatus): string {
    match s
    case Pending => "pending"
    case Shipped => "shipped"
    case Delivered => "delivered"
    case Cancelled => "cancelled"
  }

  /** Reads a status from a request; only the four enum spellings parse. */
  function ParseStatus(s: string): (r: Option<OrderStatus>)
    ensures r.Some? ==> StatusName(r.value) == s
    ensures r.None? <==> forall st: OrderStatus :: StatusName(st) != s
  {
    if s == "pending" then Some(Pending)
    else if s == "shipped" then Some(Shipped)
    else if s == "delivered" then Some(Delivered)
    else if s == "cancelled" then Some(Cancelled)
    else None
  }

  /** One order line: the product, how many, and the unit price captured when
      the order was placed. */
  datatype OrderItem = OrderItem(product: Id, quantity: int, price: int)

  datatype Order = Order(
    user: Id,
    seller: Id,
    items: seq<OrderItem>,
    totalAmount: int,
    totalItems: int,
    status: OrderStatus,
    shippingAddress: string)

  /** Sum of unit price times quantity over the items. */
  function AmountOf(items: seq<OrderItem>): int {
    if |items| == 0 then 0
    else AmountOf(items[..|items| - 1]) + items[|items| - 1].price * items[|items| - 1].quantity
  }

  /** Sum of quantities over the items. */
  function CountOf(items: seq<OrderItem>): int {
    if |items| == 0 then 0
    else CountOf(items[..|items| - 1]) + items[|items| - 1].quantity
  }

  /** The stored totals agree with the items. */
  predicate TotalsConsistent(o: Order) {
    o.totalAmount == AmountOf(o.items) && o.totalItems == CountOf(o.items)
  }

  /** What the schema demands of a stored order. */
  predicate SchemaValid(o: Order) {
    && Present(o.user) && Present(o.seller) && Present(o.shippingAddress)
    && forall k :: 0 <= k < |o.items| ==> Present(o.items[k].product) && o.items[k].quantity >= 1
  }

  lemma {:induction false} AmountOfAppend(a: seq<OrderItem>, b: seq<OrderItem>)
    ensures AmountOf(a + b) == AmountOf(a) + AmountOf(b)
    ensures CountOf(a + b) == CountOf(a) + CountOf(b)
    decreases |b|
  {
    if |b| == 0 {
      assert a + b == a;
    } else {
      var b' := b[..|b| - 1];
      assert (a + b)[..|a + b| - 1] == a + b';
      AmountOfAppend(a, b');
    }
  }

  /** With positive quantities and non-negative prices the order counts at
      least one unit per line and its amount is non-negative. */
  lemma {:induction false} TotalsBounds(items: seq<OrderItem>)
    requires forall k :: 0 <= k < |items| ==> items[k].quantity >= 1 && items[k].price >= 0
    ensures CountOf(items) >= |items|
    ensures AmountOf(items) >= 0
  {
    if |items| > 0 {
      var last := items[|items| - 1];
      TotalsBounds(items[..|items| - 1]);
      assert last.price * last.quantity >= 0 by {
        assert last.price >= 0 && last.quantity >= 1;
      }
    }
  }
}

=== FILE: orders.dfy ===
/**
 The order handlers. `createOrder` prices the requested items against the
 catalog one by one, stopping at the first unknown product, and stores a single
 order for the one seller named in the request; `updateOrder` overwrites the
 status with any of the four enum values.
 */
module Orders {
  import opened Common
  import opened ProductModel
  import opened OrderModel
  import opened Store

  /** One `{product, quantity}` entry of the request's `items`. */
  datatype ItemRequest = ItemRequest(product: Id, quantity: int)

  /** The body of `createOrder`. An absent `items` is the empty list. */
  datatype OrderRequest = OrderRequest(
    userId: Id,
    sellerId: Id,
    items: seq<ItemRequest>,
    shippingAddress: string)

  /** The first guard of `createOrder`: all four fields given, items non-empty. */
  predicate RequestComplete(req: OrderRequest) {
    Present(req.userId) && Present(req.sellerId) && |req.items| > 0 && Present(req.shippingAddress)
  }

  /** Position of the first requested item whose product is not in the
      catalog: the item the pricing loop stops at. */
  function FirstUnknown(products: map<Id, Product>, items: seq<ItemRequest>): (r: Option<nat>)
    ensures r.None? <==> forall k :: 0 <= k < |items| ==> items[k].product in products
    ensures r.Some? ==> r.value < |items| && items[r.value].product !in products
                        && forall k :: 0 <= k < r.value ==> items[k].product in products
  {
    if |items| == 0 then None
    else if items[0].product !in products then Some(0)
    else
      match FirstUnknown(products, items[1..])
      case None =>
        assert forall k :: 1 <= k < |items| ==> items[k] == items[1..][k - 1];
        None
      case Some(i) =>
        assert forall k :: 1 <= k <= i + 1 ==> items[k] == items[1..][k - 1];
        Some(i + 1)
  }

  /** The order line for a requested item, with the catalog's unit price of
      the moment. */
  function Snapshot(products: map<Id, Product>, it: ItemRequest): (item: OrderItem)
    requires it.product in products
    ensures item.product == it.product && item.quantity == it.quantity
    ensures item.price == products[it.product].price
  {
    OrderItem(it.product, it.quantity, products[it.product].price)
  }

  datatype Pricing = Pricing(items: seq<OrderItem>, totalAmount: int, totalItems: int)

  /** The loop of `createOrder`: look up each requested product in order, add
      unit price times quantity to the amount and the quantity to the count,
      and record the unit price on the item. */
  method PriceItems(products: map<Id, Product>, requested: seq<ItemRequest>) returns (r: Result<Pricing>)
    ensures r.Err? <==> FirstUnknown(products, requested).Some?
    ensures r.Err? ==> r.reason == OrderItemNotFound(requested[FirstUnknown(products, requested).value].product)
    ensures r.Ok? ==> |r.value.items| == |requested|
                      && forall k :: 0 <= k < |requested| ==>
                           requested[k].product in products && r.value.items[k] == Snapshot(products, requested[k])
    ensures r.Ok? ==> r.value.totalAmount == AmountOf(r.value.items) && r.value.totalItems == CountOf(r.value.items)
  {
    var items: seq<OrderItem> := [];
    var totalAmount := 0;
    var totalItems := 0;
    var i := 0;
    while i < |requested|
      invariant 0 <= i <= |requested|
      invariant forall k :: 0 <= k < i ==> requested[k].product in products
      invariant |items| == i
      invariant forall k :: 0 <= k < i ==> items[k] == Snapshot(products, requested[k])
      invariant totalAmount == AmountOf(items) && totalItems == CountOf(items)
    {
      var it := requested[i];
      if it.product !in products {
        var first := FirstUnknown(products, requested);
        assert first == Some(i);
        return Err(OrderItemNotFound(it.product));
      }
      var unitPrice := products[it.product].price;
      totalAmount := totalAmount + unitPrice * it.quantity;
      totalItems := totalItems + it.quantity;
      var before := items;
      items := items + [OrderItem(it.product, it.quantity, unitPrice)];
      assert items[..|items| - 1] == before;
      i := i + 1;
    }
    return Ok(Pricing(items, totalAmount, totalItems));
  }

  /** `createOrder`: validate the body, check the buyer, price the items, and
      store one pending order under the fresh id `newId`. */
  method CreateOrder(db: Db, req: OrderRequest, newId: Id) returns (r: Result<(Db, Order)>)
    requires newId !in db.orders
    ensures !RequestComplete(req) ==> r == Err(MissingFields)
    ensures RequestComplete(req) && req.userId !in db.users ==> r == Err(UserNotFound)
    ensures (RequestComplete(req) && req.userId in db.users && FirstUnknown(db.products, req.items).Some?)
              ==> r == Err(OrderItemNotFound(req.items[FirstUnknown(db.products, req.items).value].product))
    ensures r.Ok? <==> (RequestComplete(req) && req.userId in db.users
                        && FirstUnknown(db.products, req.items).None?)
    ensures r.Ok? ==> var o := r.value.1;
                      && r.value.0 == db.(orders := db.orders[newId := o])
                      && o.user == req.userId && o.seller == req.sellerId
                      && o.shippingAddress == req.shippingAddress && o.status == DefaultStatus
                      && TotalsConsistent(o)
                      && |o.items| == |req.items|
                      && forall k :: 0 <= k < |o.items| ==>
                           && o.items[k].product == req.items[k].product
                           && o.items[k].quantity == req.items[k].quantity
                           && o.items[k].price == db.products[req.items[k].product].price
    ensures (r.Ok? && forall k :: 0 <= k < |req.items| ==>
                        Present(req.items[k].product) && req.items[k].quantity >= 1)
              ==> SchemaValid(r.value.1)
  {
    if !RequestComplete(req) {
      return Err(MissingFields);
    }
    if req.userId !in db.users {
      return Err(UserNotFound);
    }
    var priced := PriceItems(db.products, req.items);
    match priced
    case Err(e) =>
      return Err(e);
    case Ok(p) =>
      var order := Order(req.userId, req.sellerId, p.items, p.totalAmount, p.totalItems,
                         DefaultStatus, req.shippingAddress);
      return Ok((db.(orders := db.orders[newId := order]), order));
  }

  /** `updateOrder`: the order must exist, then the status must be one of the
      enum values; the new status replaces the old one whatever it was. */
  function UpdateOrder(db: Db, orderId: Id, status: string): (r: Result<(Db, Order)>)
    ensures !Present(orderId) || !Present(status) ==> r == Err(MissingFields)
    ensures (Present(orderId) && Present(status) && orderId !in db.orders) ==> r == Err(OrderNotFound)
    ensures (Present(orderId) && orderId in db.orders && Present(status) && ParseStatus(status).None?)
              ==> r == Err(InvalidStatus)
    ensures r.Ok? <==> Present(orderId) && orderId in db.orders && ParseStatus(status).Some?
    ensures r.Ok? ==> && StatusName(r.value.1.status) == status
                      && r.value.1 == db.orders[orderId].(status := r.value.1.status)
                      && r.value.0 == db.(orders := db.orders[orderId := r.value.1])
  {
    if !Present(orderId) || !Present(status) then Err(MissingFields)
    else if orderId !in db.orders then Err(OrderNotFound)
    else
      match ParseStatus(status)
      case None => Err(InvalidStatus)
      case Some(s) =>
        var o := db.orders[orderId].(status := s);
        Ok((db.(orders := db.orders[orderId := o]), o))
  }

  /** There is no transition guard: from any current status, any of the four
      statuses can be set. */
  lemma AnyStatusReachable(db: Db, orderId: Id, target: OrderStatus)
    requires Present(orderId) && orderId in db.orders
    ensures UpdateOrder(db, orderId, StatusName(target)).Ok?
    ensures UpdateOrder(db, orderId, StatusName(target)).value.1.status == target
  {
  }

  /** Repeating a status update changes nothing further. */
  lemma UpdateOrderIdempotent(db: Db, orderId: Id, status: string)
    requires UpdateOrder(db, orderId, status).Ok?
    ensures UpdateOrder(UpdateOrder(db, orderId, status).value.0, orderId, status)
            == UpdateOrder(db, orderId, status)
  {
    var (db1, o1) := UpdateOrder(db, orderId, status).value;
    var st := ParseStatus(status).value;
    assert o1.(status := st) == o1;
    assert db1.orders[orderId := o1] == db1.orders;
  }
}

=== FILE: product_model.dfy ===
/**
 The Product and Seller documents. Only the fields the schema declares are kept
 (the care-instruction defaults are left out); `details` and `images`, which the
 product controller validates, have no schema path and so are not stored.
 */
module ProductModel {
  import opened Common

  /** A seller as the catalog sees one: only the admin-set approval flag
      matters to the product, cart and wishlist handlers. */
  datatype Seller = Seller(username: string, isApproved: bool)

  datatype Product = Product(
    seller: Id,
    title: string,
    description: string,
    price: int,
    stock: int,
    category: string,
    thumbnail: string,
    scientificName: string,
    origin: string,
    subtitle: string)

  /** The schema's category enum, in its declared order. */
  const SchemaCategories: seq<string> :=
    ["Top Pick", "Indoor", "Outdoor", "Fertilizer", "Plants",
     "Flowers", "Herbs", "Seeds", "Fruits", "Vegetables"]

  /** The categories the create handler accepts. */
  const ControllerCategories: seq<string> := ["Plants", "Flowers", "Herbs", "Seeds"]

  const DefaultCategory: string := "Plants"
  const DefaultSubtitle: string := "General Plant"

  /** The schema's numeric bounds and category enum. */
  predicate WithinBounds(p: Product) {
    p.price >= 0 && p.stock >= 0 && p.category in SchemaCategories
  }

  /** The schema's required string fields are all non-empty. */
  predicate HasRequiredFields(p: Product) {
    Present(p.seller) && Present(p.title) && Present(p.description) && Present(p.thumbnail)
    && Present(p.scientificName) && Present(p.origin) && Present(p.category)
  }

  /** Every category the handler accepts is one the schema accepts, and the
      schema's default is among both. */
  lemma ControllerCategoriesWithinSchema()
    ensures forall c :: c in ControllerCategories ==> c in SchemaCategories
    ensures DefaultCategory in ControllerCategories && DefaultCategory in SchemaCategories
    ensures |ControllerCategories| < |SchemaCategories|
  {
  }
}

=== FILE: products.dfy ===
/**
 The product write handlers. Each runs a fixed sequence of guards and answers
 with the first one that fails: required fields, then (on create only) numeric
 bounds, category whitelist and id format, then seller existence and approval,
 then (on edit and delete) product existence.
 */
module Products {
  import opened Common
  import opened ProductModel
  import opened Store
  import opened NumberCast

  /** The `images` body field: absent, an array of URLs, or any other value. */
  datatype ImagesField = Omitted | List(urls: seq<string>) | NotAList

  /** The body shared by create and edit. */
  datatype ProductForm = ProductForm(
    seller: Id,
    title: string,
    description: string,
    details: string,
    price: NumberField,
    stock: NumberField,
    category: string,
    thumbnail: string,
    images: ImagesField)

  /** The destructuring default `images = []`. */
  function ImagesOf(f: ProductForm): (im: ImagesField)
    ensures im != Omitted
    ensures f.images != Omitted ==> im == f.images
  {
    if f.images.Omitted? then List([]) else f.images
  }

  /** The text fields both create and edit require. */
  predicate TextFieldsGiven(f: ProductForm) {
    Present(f.seller) && Present(f.title) && Present(f.description) && Present(f.details)
    && Present(f.category) && Present(f.thumbnail)
  }

  /** A JSON number that is not negative (`typeof x === "number" && x >= 0`). */
  predicate NonNegative(x: NumberField) {
    x.Number? && x.n >= 0
  }

  /// createProduct

  /** The first guard of `createProduct`: every field given and `images`
      (after its default) an array. */
  predicate CreateFieldsGiven(f: ProductForm) {
    TextFieldsGiven(f) && !f.price.Undefined? && !f.stock.Undefined? && ImagesOf(f).List?
  }

  /** Every product in the catalog respects the schema's bounds and enum. */
  predicate CatalogWithinBounds(db: Db) {
    forall p :: p in db.products ==> WithinBounds(db.products[p])
  }

  /** `createProduct`, up to the save: `validId` stands for
      `mongoose.Types.ObjectId.isValid`, `newId` for the id the store assigns.
      The guards run in the order of the clauses below. */
  function CreateProduct(db: Db, f: ProductForm, validId: Id -> bool, newId: Id): (r: Result<(Db, Product)>)
    requires newId !in db.products
    ensures !CreateFieldsGiven(f) ==> r == Err(MissingFields)
    ensures CreateFieldsGiven(f) && !NonNegative(f.price) ==> r == Err(InvalidPrice)
    ensures (CreateFieldsGiven(f) && NonNegative(f.price) && !NonNegative(f.stock)) ==> r == Err(InvalidStock)
    ensures (CreateFieldsGiven(f) && NonNegative(f.price) && NonNegative(f.stock)
             && f.category !in ControllerCategories) ==> r == Err(InvalidCategory)
    ensures (CreateFieldsGiven(f) && NonNegative(f.price) && NonNegative(f.stock)
             && f.category in ControllerCategories && !validId(f.seller)) ==> r == Err(InvalidSellerId)
    ensures (CreateFieldsGiven(f) && NonNegative(f.price) && NonNegative(f.stock)
             && f.category in ControllerCategories && validId(f.seller) && f.seller !in db.sellers)
              ==> r == Err(SellerNotFound)
    ensures (CreateFieldsGiven(f) && NonNegative(f.price) && NonNegative(f.stock)
             && f.category in ControllerCategories && validId(f.seller) && f.seller in db.sellers
             && !db.sellers[f.seller].isApproved) ==> r == Err(SellerNotApproved)
    ensures r.Ok? <==> (CreateFieldsGiven(f) && NonNegative(f.price) && NonNegative(f.stock)
                        && f.category in ControllerCategories && validId(f.seller)
                        && f.seller in db.sellers && db.sellers[f.seller].isApproved)
    ensures r.Ok? ==> var p := r.value.1;
                      && r.value.0 == db.(products := db.products[newId := p])
                      && p.seller == f.seller && p.title == f.title && p.description == f.description
                      && f.price == Number(p.price) && f.stock == Number(p.stock) && p.category == f.category
                      && p.thumbnail == f.thumbnail && p.subtitle == DefaultSubtitle
                      && p.seller in db.sellers && db.sellers[p.seller].isApproved
    ensures r.Ok? ==> WithinBounds(r.value.1) && !HasRequiredFields(r.value.1)
    ensures r.Ok? && CatalogWithinBounds(db) ==> CatalogWithinBounds(r.value.0)
  {
    if !CreateFieldsGiven(f) then Err(MissingFields)
    else if !NonNegative(f.price) then Err(InvalidPrice)
    else if !NonNegative(f.stock) then Err(InvalidStock)
    else if f.category !in ControllerCategories then Err(InvalidCategory)
    else if !validId(f.seller) then Err(InvalidSellerId)
    else if f.seller !in db.sellers then Err(SellerNotFound)
    else if !db.sellers[f.seller].isApproved then Err(SellerNotApproved)
    else
      ControllerCategoriesWithinSchema();
      var p := Product(f.seller, f.title, f.description, f.price.n, f.stock.n, f.category,
                       f.thumbnail, "", "", DefaultSubtitle);
      Ok((db.(products := db.products[newId := p]), p))
  }

  /// editProduct

  /** The first guard of `editProduct`: as for create plus the product id, but
      the image list must be non-empty. Price, stock and category are not
      checked beyond being present. */
  predicate EditFieldsGiven(productId: Id, f: ProductForm) {
    TextFieldsGiven(f) && Present(productId) && !f.price.Undefined? && !f.stock.Undefined?
    && ImagesOf(f).List? && |ImagesOf(f).urls| > 0
  }

  /** `editProduct`: the listed fields are overwritten with their cast values;
      the product's `seller` and every other field are left as they were. A
      price or stock the cast rejects passes the guards and fails in the
      store, which the handler's catch-all answers with 500; one the cast
      would store as `null` is answered the same way here, since the model's
      product holds integers. */
  function EditProduct(db: Db, productId: Id, f: ProductForm): (r: Result<(Db, Product)>)
    ensures !EditFieldsGiven(productId, f) ==> r == Err(MissingFields)
    ensures EditFieldsGiven(productId, f) && f.seller !in db.sellers ==> r == Err(SellerNotFound)
    ensures (EditFieldsGiven(productId, f) && f.seller in db.sellers && !db.sellers[f.seller].isApproved)
              ==> r == Err(SellerNotApproved)
    ensures (EditFieldsGiven(productId, f) && f.seller in db.sellers && db.sellers[f.seller].isApproved
             && productId !in db.products) ==> r == Err(ProductNotFound)
    ensures (EditFieldsGiven(productId, f) && f.seller in db.sellers && db.sellers[f.seller].isApproved
             && productId in db.products && !(CastNumber(f.price).Stored? && CastNumber(f.stock).Stored?))
              ==> r == Err(UpdateCastError)
    ensures r.Ok? <==> (EditFieldsGiven(productId, f) && f.seller in db.sellers && db.sellers[f.seller].isApproved
                        && productId in db.products && CastNumber(f.price).Stored? && CastNumber(f.stock).Stored?)
    ensures r.Ok? ==> var (p, before) := (r.value.1, db.products[productId]);
                      && r.value.0 == db.(products := db.products[productId := p])
                      && p.seller == before.seller
                      && p.scientificName == before.scientificName && p.origin == before.origin
                      && p.subtitle == before.subtitle
                      && p.title == f.title && p.description == f.description
                      && CastNumber(f.price) == Stored(p.price) && CastNumber(f.stock) == Stored(p.stock)
                      && p.category == f.category && p.thumbnail == f.thumbnail
  {
    if !EditFieldsGiven(productId, f) then Err(MissingFields)
    else if f.seller !in db.sellers then Err(SellerNotFound)
    else if !db.sellers[f.seller].isApproved then Err(SellerNotApproved)
    else if productId !in db.products then Err(ProductNotFound)
    else if !(CastNumber(f.price).Stored? && CastNumber(f.stock).Stored?) then Err(UpdateCastError)
    else
      var p := db.products[productId].(title := f.title, description := f.description,
                                       price := CastNumber(f.price).n, stock := CastNumber(f.stock).n,
                                       category := f.category, thumbnail := f.thumbnail);
      Ok((db.(products := db.products[productId := p]), p))
  }

  /** Edit never checks that the product belongs to the editing seller: any
      approved seller can edit any product, and ownership stays unchanged. */
  lemma EditIgnoresOwnership(db: Db, productId: Id, f: ProductForm, owner: Id)
    requires EditFieldsGiven(productId, f) && f.price.Number? && f.stock.Number?
    requires f.seller in db.sellers && db.sellers[f.seller].isApproved
    requires productId in db.products && db.products[productId].seller == owner && owner != f.seller
    ensures EditProduct(db, productId, f).Ok?
    ensures EditProduct(db, productId, f).value.1.seller == owner
  {
  }

  /** Edit does not re-check the schema bounds: a negative price, or a
      category outside the enum, is written into the catalog. */
  lemma EditCanBreakBounds(db: Db, productId: Id, f: ProductForm)
    requires EditFieldsGiven(productId, f) && f.price.Number? && f.stock.Number?
    requires f.seller in db.sellers && db.sellers[f.seller].isApproved && productId in db.products
    requires f.price.n < 0 || f.category !in SchemaCategories
    ensures EditProduct(db, productId, f).Ok?
    ensures !WithinBounds(EditProduct(db, productId, f).value.0.products[productId])
  {
  }

  /** A price sent as a numeral string, or a stock sent as a boolean, passes
      the guards and is stored as the number the cast makes of it. */
  lemma EditStoresCastValues(db: Db, productId: Id, f: ProductForm, n: int, b: bool)
    requires EditFieldsGiven(productId, f) && f.price == Text(ShowInt(n)) && f.stock == Flag(b)
    requires f.seller in db.sellers && db.sellers[f.seller].isApproved && productId in db.products
    ensures EditProduct(db, productId, f).Ok?
    ensures EditProduct(db, productId, f).value.1.price == n
    ensures EditProduct(db, productId, f).value.1.stock == if b then 1 else 0
  {
    NumeralCastsToValue(n);
  }

  /** The same form with no images is accepted by create and refused by
      edit. */
  lemma EmptyImagesCreateOnly(db: Db, f: ProductForm, validId: Id -> bool, newId: Id, productId: Id)
    requires newId !in db.products
    requires TextFieldsGiven(f) && NonNegative(f.price) && NonNegative(f.stock)
    requires f.category in ControllerCategories && validId(f.seller)
    requires f.seller in db.sellers && db.sellers[f.seller].isApproved
    requires f.images == Omitted || f.images == List([])
    ensures CreateProduct(db, f, validId, newId).Ok?
    ensures EditProduct(db, productId, f) == Err(MissingFields)
  {
  }

  /// deleteProduct

  /** `deleteProduct`: the product document goes; carts, wishlists and orders
      that refer to it are left as they are. */
  function DeleteProduct(db: Db, sellerId: Id, productId: Id): (r: Result<Db>)
    ensures !Present(sellerId) || !Present(productId) ==> r == Err(MissingFields)
    ensures (Present(sellerId) && Present(productId) && sellerId !in db.sellers) ==> r == Err(SellerNotFound)
    ensures (Present(sellerId) && Present(productId) && sellerId in db.sellers
             && !db.sellers[sellerId].isApproved) ==> r == Err(SellerNotApproved)
    ensures (Present(sellerId) && Present(productId) && sellerId in db.sellers
             && db.sellers[sellerId].isApproved && productId !in db.products) ==> r == Err(ProductNotFound)
    ensures r.Ok? <==> (Present(sellerId) && Present(productId) && sellerId in db.sellers
                        && db.sellers[sellerId].isApproved && productId in db.products)
    ensures r.Ok? ==> && r.value.products.Keys == db.products.Keys - {productId}
                      && (forall q :: q in r.value.products ==> r.value.products[q] == db.products[q])
                      && r.value.users == db.users && r.value.orders == db.orders
                      && r.value.sellers == db.sellers
  {
    if !Present(sellerId) || !Present(productId) then Err(MissingFields)
    else if sellerId !in db.sellers then Err(SellerNotFound)
    else if !db.sellers[sellerId].isApproved then Err(SellerNotApproved)
    else if productId !in db.products then Err(ProductNotFound)
    else Ok(db.(products := db.products - {productId}))
  }
}

=== FILE: store.dfy ===
/**
 The database as the handlers see it: four collections keyed by document id,
 and the approval test the read handlers apply when they populate products.
 */
module Store {
  import opened Common
  import opened UserModel
  import opened ProductModel
  import opened OrderModel

  datatype Db = Db(
    users: map<Id, User>,
    products: map<Id, Product>,
    sellers: map<Id, Seller>,
    orders: map<Id, Order>)

  /** A product reference survives population: the product exists and its
      seller exists and is approved (`populate` with `match: {isApproved: true}`
      leaves `seller` null otherwise). */
  predicate Listed(db: Db, p: Id) {
    p in db.products && db.products[p].seller in db.sellers && db.sellers[db.products[p].seller].isApproved
  }

  /** The store with one user's document replaced. */
  function WithUser(db: Db, userId: Id, u: User): (db': Db)
    ensures db'.users.Keys == db.users.Keys + {userId} && db'.users[userId] == u
    ensures forall other :: other in db.users && other != userId ==> db'.users[other] == db.users[other]
    ensures db'.products == db.products && db'.sellers == db.sellers && db'.orders == db.orders
  {
    db.(users := db.users[userId := u])
  }
}

=== FILE: user_model.dfy ===
/**
 The User document: the cart line shape, the wishlist of product references, and
 the length rules the schema places on username and password (both trimmed
 before they are checked).
 */
module UserModel {
  import opened Common

  /** One cart entry `{product, quantity}`. The schema defaults `quantity` to 0;
      only the cart handlers keep it at 1 or more. */
  datatype CartLine = CartLine(product: Id, quantity: int)

  datatype User = User(
    email: string,
    username: string,
    password: string,
    address: seq<string>,
    cart: seq<CartLine>,
    wishlist: seq<Id>)

  const UsernameMinLength: nat := 3
  const UsernameMaxLength: nat := 20
  const PasswordMinLength: nat := 6

  /** The characters `String.prototype.trim` strips: the white space and line
      terminators of the ECMAScript grammar, with every space separator. */
  predicate IsSpace(c: char) {
    var n := c as int;
    || 0x09 <= n <= 0x0D || n == 0x20 || n == 0xA0 || n == 0x1680
    || 0x2000 <= n <= 0x200A || n == 0x2028 || n == 0x2029 || n == 0x202F
    || n == 0x205F || n == 0x3000 || n == 0xFEFF
  }

  /** The first position from `i` on that is not space (or the end). */
  function SkipSpaces(s: string, i: nat): (a: nat)
    requires i <= |s|
    ensures i <= a <= |s|
    ensures forall k :: i <= k < a ==> IsSpace(s[k])
    ensures a == |s| || !IsSpace(s[a])
    decreases |s| - i
  {
    if i < |s| && IsSpace(s[i]) then SkipSpaces(s, i + 1) else i
  }

  /** The end of `s[..j]` once its trailing spaces after `lo` are cut off. */
  function BackOverSpaces(s: string, lo: nat, j: nat): (b: nat)
    requires lo <= j <= |s|
    ensures lo <= b <= j
    ensures forall k :: b <= k < j ==> IsSpace(s[k])
    ensures b == lo || !IsSpace(s[b - 1])
  {
    if j > lo && IsSpace(s[j - 1]) then BackOverSpaces(s, lo, j - 1) else j
  }

  /** `r` is `s[i..j]`, and everything before `i` and from `j` on is space. */
  predicate TrimmedAt(s: string, r: string, i: int, j: int) {
    && 0 <= i <= j <= |s| && r == s[i..j]
    && (forall k :: 0 <= k < i ==> IsSpace(s[k]))
    && (forall k :: j <= k < |s| ==> IsSpace(s[k]))
  }

  /** The schema's `trim: true` setter. */
  function Trim(s: string): (r: string)
    ensures exists i, j :: TrimmedAt(s, r, i, j)
    ensures |r| == 0 || (!IsSpace(r[0]) && !IsSpace(r[|r| - 1]))
  {
    var a := SkipSpaces(s, 0);
    var b := BackOverSpaces(s, a, |s|);
    assert TrimmedAt(s, s[a..b], a, b);
    s[a..b]
  }

  lemma TrimIdempotent(s: string)
    ensures Trim(Trim(s)) == Trim(s)
  {
  }

  /** JavaScript's `length`: UTF-16 code units, two for a character outside
      the Basic Multilingual Plane. The schema's length rules count these. */
  function JsLength(s: string): (n: nat)
    ensures |s| <= n <= 2 * |s|
    ensures (forall i :: 0 <= i < |s| ==> (s[i] as int) < 0x10000) ==> n == |s|
  {
    if |s| == 0 then 0
    else JsLength(s[..|s| - 1]) + (if (s[|s| - 1] as int) < 0x10000 then 1 else 2)
  }

  /** A character counts one code unit inside the Basic Multilingual Plane
      and two (a surrogate pair) outside it. */
  lemma JsLengthChar(c: char)
    ensures JsLength([c]) == if (c as int) < 0x10000 then 1 else 2
  {
    assert [c][..0] == [];
  }

  /** Lengths add up over concatenation, so `JsLength` is the sum of the
      per-character counts of `JsLengthChar`. */
  lemma {:induction false} JsLengthAppend(a: string, b: string)
    ensures JsLength(a + b) == JsLength(a) + JsLength(b)
  {
    if |b| == 0 {
      assert a + b == a;
    } else {
      var b' := b[..|b| - 1];
      assert (a + b)[..|a + b| - 1] == a + b';
      assert (a + b)[|a + b| - 1] == b[|b| - 1];
      JsLengthAppend(a, b');
    }
  }

  /** The username the schema stores, or None when the trimmed value is
      outside 3..20 UTF-16 code units. */
  function StoredUsername(raw: string): (r: Option<string>)
    ensures r.Some? <==> UsernameMinLength <= JsLength(Trim(raw)) <= UsernameMaxLength
    ensures r.Some? ==> r.value == Trim(raw) && !IsSpace(r.value[0]) && !IsSpace(r.value[|r.value| - 1])
  {
    var t := Trim(raw);
    if UsernameMinLength <= JsLength(t) <= UsernameMaxLength then Some(t) else None
  }

  /** Two characters outside the Basic Multilingual Plane make a username of
      four code units, long enough for the schema. */
  lemma TwoAstralCharactersAreAUsername()
    ensures StoredUsername("\U{1F600}\U{1F600}") == Some("\U{1F600}\U{1F600}")
  {
    var s := "\U{1F600}\U{1F600}";
    assert !IsSpace(s[0]) && !IsSpace(s[1]);
    assert SkipSpaces(s, 0) == 0;
    assert BackOverSpaces(s, 0, 2) == 2;
    assert s[0..2] == s;
    assert s[..1] == "\U{1F600}" && s[..1][..0] == "";
    assert JsLength(s) == 4;
  }

  /** The password the schema stores, or None when the trimmed value is shorter
      than 6 UTF-16 code units. */
  function StoredPassword(raw: string): (r: Option<string>)
    ensures r.Some? <==> JsLength(Trim(raw)) >= PasswordMinLength
    ensures r.Some? ==> r.value == Trim(raw) && JsLength(r.value) >= PasswordMinLength
  {
    var t := Trim(raw);
    if JsLength(t) >= PasswordMinLength then Some(t) else None
  }

  /** The schema's `lowercase: true` setter on the ASCII letters. */
  function Lower(s: string): (r: string)
    ensures |r| == |s|
    ensures forall i :: 0 <= i < |s| ==> if 'A' <= s[i] <= 'Z' then r[i] as int == s[i] as int + 32 else r[i] == s[i]
    ensures forall i :: 0 <= i < |r| ==> !('A' <= r[i] <= 'Z')
  {
    if |s| == 0 then []
    else
      var c := s[0];
      [if 'A' <= c <= 'Z' then (c as int + 32) as char else c] + Lower(s[1..])
  }

  lemma LowerIdempotent(s: string)
    ensures Lower(Lower(s)) == Lower(s)
  {
  }

  /** The email the schema stores: trimmed, then lower-cased. */
  function StoredEmail(raw: string): (r: string)
    ensures |r| == |Trim(raw)| <= |raw|
    ensures forall i :: 0 <= i < |r| ==>
              if 'A' <= Trim(raw)[i] <= 'Z' then r[i] as int == Trim(raw)[i] as int + 32 else r[i] == Trim(raw)[i]
    ensures forall i :: 0 <= i < |r| ==> !('A' <= r[i] <= 'Z')
  {
    Lower(Trim(raw))
  }

  /** A user as the schema creates one: the email, username and password as
      their setters store them, no address, empty cart and wishlist. */
  function NewUser(email: string, username: string, password: string): (u: User)
    requires StoredUsername(username).Some? && StoredPassword(password).Some?
    ensures u.email == StoredEmail(email)
    ensures u.username == Trim(username) && UsernameMinLength <= JsLength(u.username) <= UsernameMaxLength
    ensures u.password == Trim(password) && JsLength(u.password) >= PasswordMinLength
    ensures u.address == [] && u.cart == [] && u.wishlist == []
  {
    User(StoredEmail(email), StoredUsername(username).value, StoredPassword(password).value, [], [], [])
  }
}

=== FILE: wishlist.dfy ===
/**
 The wishlist handlers. A wishlist is an ordered list of product ids; adding
 refuses an id already present, removing refuses an id that is absent and
 otherwise filters it out, and fetching keeps only products of approved
 sellers.
 */
module Wishlist {
  import opened Common
  import opened ProductModel
  import opened Store

  predicate NoDuplicates(w: seq<Id>) {
    forall i, j :: 0 <= i < j < |w| ==> w[i] != w[j]
  }

  /** The filter of `removeFromWishlist`. */
  function RemoveId(w: seq<Id>, p: Id): (r: seq<Id>)
    ensures forall x :: x in r <==> x in w && x != p
    ensures |r| <= |w|
  {
    if |w| == 0 then []
    else
      var rest := RemoveId(w[1..], p);
      assert forall x :: x in w <==> x == w[0] || x in w[1..];
      if w[0] == p then rest else [w[0]] + rest
  }

  lemma {:induction false} RemoveIdAbsent(w: seq<Id>, p: Id)
    requires p !in w
    ensures RemoveId(w, p) == w
  {
    if |w| > 0 {
      assert w[0] != p && p !in w[1..];
      RemoveIdAbsent(w[1..], p);
      assert w == [w[0]] + w[1..];
    }
  }

  lemma {:induction false} RemoveIdAppend(a: seq<Id>, b: seq<Id>, p: Id)
    ensures RemoveId(a + b, p) == RemoveId(a, p) + RemoveId(b, p)
  {
    if |a| == 0 {
      assert a + b == b;
    } else {
      assert (a + b)[0] == a[0] && (a + b)[1..] == a[1..] + b;
      RemoveIdAppend(a[1..], b, p);
    }
  }

  /** In a duplicate-free wishlist, removing `p` cuts out exactly its one
      position and keeps the rest in order. */
  lemma {:induction false} RemoveIdAt(w: seq<Id>, i: int)
    requires NoDuplicates(w) && 0 <= i < |w|
    ensures RemoveId(w, w[i]) == w[..i] + w[i + 1..]
  {
    var p, tail := w[i], w[1..];
    assert NoDuplicates(tail) by {
      assert forall k :: 0 <= k < |tail| ==> tail[k] == w[k + 1];
    }
    if i == 0 {
      assert p !in tail by {
        forall k | 0 <= k < |tail| ensures tail[k] != p {
          assert tail[k] == w[k + 1];
        }
      }
      RemoveIdAbsent(tail, p);
      assert w[..0] + w[1..] == tail;
    } else {
      assert w[0] != p;
      assert tail[i - 1] == p;
      RemoveIdAt(tail, i - 1);
      assert tail[..i - 1] + tail[i..] == w[1..i] + w[i + 1..];
      assert [w[0]] + w[1..i] == w[..i];
    }
  }

  lemma {:induction false} RemoveIdKeepsNoDuplicates(w: seq<Id>, p: Id)
    requires NoDuplicates(w)
    ensures NoDuplicates(RemoveId(w, p))
  {
    if |w| > 0 {
      var tail := w[1..];
      assert NoDuplicates(tail) by {
        assert forall i :: 0 <= i < |tail| ==> tail[i] == w[i + 1];
      }
      RemoveIdKeepsNoDuplicates(tail, p);
      var rest := RemoveId(tail, p);
      if w[0] != p {
        assert w[0] !in tail by {
          forall k | 0 <= k < |tail| ensures tail[k] != w[0] {
            assert tail[k] == w[k + 1];
          }
        }
        var r := [w[0]] + rest;
        forall i, j | 0 <= i < j < |r| ensures r[i] != r[j] {
          assert r[j] == rest[j - 1] && rest[j - 1] in rest;
          if i > 0 {
            assert r[i] == rest[i - 1];
          }
        }
      }
    }
  }

  /// Handlers

  /** Every user's wishlist is duplicate-free. */
  predicate WishlistsDistinct(db: Db) {
    forall u :: u in db.users ==> NoDuplicates(db.users[u].wishlist)
  }

  function WithWishlist(db: Db, userId: Id, w: seq<Id>): (db': Db)
    requires userId in db.users
    ensures db'.users.Keys == db.users.Keys && db'.users[userId] == db.users[userId].(wishlist := w)
    ensures forall u :: u in db.users && u != userId ==> db'.users[u] == db.users[u]
    ensures db'.products == db.products && db'.sellers == db.sellers && db'.orders == db.orders
  {
    WithUser(db, userId, db.users[userId].(wishlist := w))
  }

  function AddToWishlist(db: Db, userId: Id, productId: Id): (r: Result<(Db, seq<Id>)>)
    ensures !Present(userId) || !Present(productId) ==> r == Err(MissingFields)
    ensures (Present(userId) && Present(productId) && userId !in db.users) ==> r == Err(UserNotFound)
    ensures (Present(userId) && Present(productId) && userId in db.users && productId !in db.products)
              ==> r == Err(ProductNotFound)
    ensures (Present(userId) && Present(productId) && userId in db.users && productId in db.products
             && productId in db.users[userId].wishlist) ==> r == Err(AlreadyInWishlist)
    ensures r.Ok? <==> (Present(userId) && Present(productId) && userId in db.users
                        && productId in db.products && productId !in db.users[userId].wishlist)
    ensures r.Ok? ==> r.value.1 == db.users[userId].wishlist + [productId]
                      && r.value.0 == WithWishlist(db, userId, r.value.1)
    ensures r.Ok? && WishlistsDistinct(db) ==> WishlistsDistinct(r.value.0)
  {
    if !Present(userId) || !Present(productId) then Err(MissingFields)
    else if userId !in db.users then Err(UserNotFound)
    else if productId !in db.products then Err(ProductNotFound)
    else if productId in db.users[userId].wishlist then Err(AlreadyInWishlist)
    else
      var w := db.users[userId].wishlist + [productId];
      Ok((WithWishlist(db, userId, w), w))
  }

  function RemoveFromWishlist(db: Db, userId: Id, productId: Id): (r: Result<(Db, seq<Id>)>)
    ensures !Present(userId) || !Present(productId) ==> r == Err(MissingFields)
    ensures (Present(userId) && Present(productId) && userId !in db.users) ==> r == Err(UserNotFound)
    ensures (Present(userId) && Present(productId) && userId in db.users && productId !in db.products)
              ==> r == Err(ProductNotFound)
    ensures (Present(userId) && Present(productId) && userId in db.users && productId in db.products
             && productId !in db.users[userId].wishlist) ==> r == Err(NotInWishlist)
    ensures r.Ok? <==> (Present(userId) && Present(productId) && userId in db.users
                        && productId in db.products && productId in db.users[userId].wishlist)
    ensures r.Ok? ==> r.value.1 == RemoveId(db.users[userId].wishlist, productId)
                      && r.value.0 == WithWishlist(db, userId, r.value.1)
                      && |r.value.1| < |db.users[userId].wishlist|
    ensures r.Ok? && WishlistsDistinct(db) ==> WishlistsDistinct(r.value.0)
  {
    if !Present(userId) || !Present(productId) then Err(MissingFields)
    else if userId !in db.users then Err(UserNotFound)
    else if productId !in db.products then Err(ProductNotFound)
    else if productId !in db.users[userId].wishlist then Err(NotInWishlist)
    else
      var before := db.users[userId].wishlist;
      var w := RemoveId(before, productId);
      assert |w| < |before| by {
        RemoveIdShrinks(before, productId);
      }
      assert WishlistsDistinct(db) ==> NoDuplicates(w) by {
        if WishlistsDistinct(db) {
          RemoveIdKeepsNoDuplicates(before, productId);
        }
      }
      Ok((WithWishlist(db, userId, w), w))
  }

  lemma {:induction false} RemoveIdShrinks(w: seq<Id>, p: Id)
    requires p in w
    ensures |RemoveId(w, p)| < |w|
  {
    if w[0] != p {
      RemoveIdShrinks(w[1..], p);
    }
  }

  /** Adding a product that was not wished for and then removing it gives
      back the store exactly as it was. */
  lemma AddThenRemoveRestores(db: Db, userId: Id, productId: Id)
    requires AddToWishlist(db, userId, productId).Ok?
    ensures RemoveFromWishlist(AddToWishlist(db, userId, productId).value.0, userId, productId)
            == Ok((db, db.users[userId].wishlist))
  {
    var w := db.users[userId].wishlist;
    var db' := AddToWishlist(db, userId, productId).value.0;
    RemoveIdAppend(w, [productId], productId);
    RemoveIdAbsent(w, productId);
    assert RemoveId([productId], productId) == RemoveId([], productId) == [];
    assert RemoveId(w + [productId], productId) == w;
    assert db'.users[userId].wishlist == w + [productId];
    assert WithWishlist(db', userId, w) == db by {
      assert db'.users[userId := db.users[userId]] == db.users;
    }
  }

  /// The response of `fetchWishlist`

  /** A populated wishlist entry: the id and the product document. */
  datatype Listing = Listing(id: Id, product: Product)

  /** The wished-for products whose seller is approved, in wishlist order. */
  function ListedProducts(db: Db, w: seq<Id>): (r: seq<Listing>)
    ensures |r| <= |w|
    ensures forall x :: x in r ==> x.id in w && Listed(db, x.id) && x.product == db.products[x.id]
    ensures forall p :: p in w && Listed(db, p) ==> Listing(p, db.products[p]) in r
  {
    if |w| == 0 then []
    else
      var rest := ListedProducts(db, w[1..]);
      assert forall x :: x in w <==> x == w[0] || x in w[1..];
      if Listed(db, w[0]) then [Listing(w[0], db.products[w[0]])] + rest else rest
  }

  lemma {:induction false} ListedProductsAppend(db: Db, a: seq<Id>, b: seq<Id>)
    ensures ListedProducts(db, a + b) == ListedProducts(db, a) + ListedProducts(db, b)
  {
    if |a| == 0 {
      assert a + b == b;
    } else {
      assert (a + b)[0] == a[0] && (a + b)[1..] == a[1..] + b;
      ListedProductsAppend(db, a[1..], b);
    }
  }

  function FetchWishlist(db: Db, userId: Id): (r: Result<seq<Listing>>)
    ensures !Present(userId) ==> r == Err(MissingFields)
    ensures Present(userId) && userId !in db.users ==> r == Err(UserNotFound)
    ensures r.Ok? <==> Present(userId) && userId in db.users
    ensures r.Ok? ==> forall x :: x in r.value <==>
                        x.id in db.users[userId].wishlist && Listed(db, x.id) && x.product == db.products[x.id]
  {
    if !Present(userId) then Err(MissingFields)
    else if userId !in db.users then Err(UserNotFound)
    else Ok(ListedProducts(db, db.users[userId].wishlist))
  }
}
